=== FILE: README.md ===
# Chat client core, modelled in Dafny

This project models the two pieces of logic in a small web chat client. Everything else in the client is a shell over a hosted backend. The two pieces are:

- **The chat screen controller** (`src/pages/Chat.tsx`). It holds the active session id, the message list, the `loading` flag and the sidebar's conversation list, and it handles these events:
  - live pushes of inserted rows;
  - the history query;
  - the conversations query;
  - clicks on a conversation, and New Chat;
  - the send pipeline. The pipeline inserts the human row, POSTs to the agent only if the insert succeeded, and always clears `loading` when it ends.
- **The conversation-summary fold** in `fetchConversations`. It keeps the first human-authored row of each session, in query order, and titles the entry with the first 100 code units of that row.
- **The composer** (`src/components/ChatInput.tsx`). It covers the submit guard, the Enter / Shift+Enter rule and the Send button's `disabled` predicate.

Modules:

| file | module | what it holds |
|---|---|---|
| `wrappers.dfy` | `Wrappers` | `Option`, for nullable query data and for a submit's at-most-one emission |
| `text.dfy` | `Text` | ECMAScript `trim` whitespace, `trim()` truthiness, `slice(0, n)` |
| `messages.dfy` | `Messages` | rows of the `messages` table: `session_id` and `{type, content}` |
| `ordered_maps.dfy` | `OrderedMaps` | JavaScript `Map`: `has`, `set` and insertion-ordered `values()` |
| `conversations.dfy` | `Conversations` | the fold as written (`FoldConversations`), and an independent reference definition (`Summaries`, `FirstHuman`) with its properties |
| `composer.dfy` | `Composer` | the composer's handlers and their agreement |
| `chat.dfy` | `Chat` | controller state, events, effects and one transition function per handler |
| `chat_properties.dfy` | `ChatProperties` | properties of the controller over arbitrary event sequences |
| `screen.dfy` | `Screen` | controller and composer wired together (`disabled={loading}`) |

How the model is built:

- Each asynchronous completion is a separate event: a push, a query result, an insert result, an HTTP response, or a JSON body.
- Events arrive one at a time, in any order.
- Each call of `handleSendMessage` is a `Send` record. The record keeps the session id its closure captured and the request id that `uuidv4()` drew, and it moves through the phases `Inserting`, `Requesting`, `Reading` and `Finished`.
- A completion addressed to a send that is not in the matching phase changes nothing.
- What a step asks of the backend is returned as an `Effect`: an insert, a POST, a toast, or a re-run of the session effect.
- Fresh identifiers (`uuidv4()`) are parameters of the events that need them.

The model follows the code in these places, where the code does something other than what one might expect of such a client:

- A failed history query leaves the message list as it was. It does not empty it.
- The composer emits the raw buffer, not the trimmed one.
- Nothing filters pushed rows by session on the client. The model appends whatever row a push delivers, and which rows the backend pushes is outside the model.
- Clicking the conversation that is already active empties the message list but does not re-run the effect. React skips a state update to an equal value, so neither query is issued again. `SwitchTo` states this.
- When the conversations query succeeds with `data` null, `data.forEach` throws inside the async handler. The sidebar list stays unchanged and no toast appears.

## Model

| member | source | states |
|---|---|---|
| Text.TrimStart | src/components/ChatInput.tsx:15 | the result is a suffix of the input, everything dropped is whitespace, and the result starts with a non-whitespace character or is empty |
| Text.TrimEnd | src/components/ChatInput.tsx:15 | the result is a prefix of the input, everything dropped is whitespace, and the result ends with a non-whitespace character or is empty |
| Text.Trim | src/components/ChatInput.tsx:15 | `trim()` is the infix of its input between a whitespace-only prefix and a whitespace-only suffix, and when non-empty it starts and ends with a non-whitespace character |
| Text.TrimEmptyIff | src/components/ChatInput.tsx:15 | `message.trim()` is empty exactly when every character is whitespace, and non-empty exactly when some character is not |
| Text.SliceTo | src/pages/Chat.tsx:88 | `slice(0, n)` is a prefix of its input of length min(length, n), and equals the input when the input has at most n code units |
| Messages.HumanRow | src/pages/Chat.tsx:109-117 | the inserted record is a `human` row of the given session with the given content |
| OrderedMaps.OrderedMap.Set | src/pages/Chat.tsx:85-86 | `set` maps the key to the new value; a key the map lacks is appended to the key order, so its value comes last, and an existing key keeps its place in an unchanged key order; every other key stays, with its value |
| OrderedMaps.Empty | src/pages/Chat.tsx:83 | `new Map()` is a valid map with no key and no values |
| OrderedMaps.OrderedMap.Has | src/pages/Chat.tsx:85 | `has` of a valid map holds exactly for the keys listed in its iteration order |
| OrderedMaps.OrderedMap.Values | src/pages/Chat.tsx:93 | `Array.from(values())` lists one value per key, in key insertion order |
| Conversations.SummaryOf | src/pages/Chat.tsx:86-89 | an entry carries its row's session, and its title is a prefix of the row's content of at most 100 code units: the whole content when that is at most 100 long, exactly 100 code units otherwise |
| Conversations.FirstHumanPositions | src/pages/Chat.tsx:84-86 | lists, in increasing order, exactly the positions of rows that are human and have no earlier human row in their session |
| Conversations.FirstHumanIsFirst | src/pages/Chat.tsx:84-86 | the front-to-back search for a session's first human row finds position p exactly when row p is human, in that session, and has no earlier human row of that session |
| Conversations.FirstHumanExistsIff | src/pages/Chat.tsx:85 | a session has a first human row exactly when at least one of its rows is human |
| Conversations.SummariesUnique | src/pages/Chat.tsx:83-86 | the summary list has at most one entry per session id |
| Conversations.SummaryPresentIff | src/pages/Chat.tsx:85 | a session has an entry exactly when at least one of its rows has type `human`; sessions with only non-human rows have none |
| Conversations.SummaryTitle | src/pages/Chat.tsx:84-88 | each entry's title is the first 100 code units of its session's first human row in query order |
| Conversations.SummaryOrder | src/pages/Chat.tsx:83-93 | entries are ordered by the position of their sessions' first human rows in the input, as `Map` insertion order gives |
| Conversations.FirstHumanAppend | src/pages/Chat.tsx:84-91 | one more row keeps a session's first human row if it had one; otherwise the new row becomes it exactly when it is a human row of that session |
| Conversations.SummariesAppend | src/pages/Chat.tsx:84-91 | one more row appends one entry exactly when it is the first human row of its session, and otherwise leaves the list unchanged |
| Conversations.FoldConversations | src/pages/Chat.tsx:82-93 | the `forEach` over a `Map` with `has`/`set` and `Array.from(values())` yields the reference summary list, with no session twice |
| Composer.Submit | src/components/ChatInput.tsx:13-19 | emits exactly when the buffer has a non-whitespace character and the composer is enabled; the emission is the raw buffer and clears it; otherwise nothing is emitted and the buffer is unchanged |
| Composer.Handle | src/components/ChatInput.tsx:22-35 | an edit replaces the buffer and emits nothing; the Send button and Enter without Shift run the submit guard; any other key neither emits nor changes the buffer |
| Composer.SendDisabled | src/components/ChatInput.tsx:39 | the Send button is disabled exactly when the composer is disabled or the buffer holds only whitespace |
| Composer.SendEnabledIffSubmitEmits | src/components/ChatInput.tsx:37-39 | the Send button is enabled exactly when a submit would emit |
| Composer.EnterKeyRule | src/components/ChatInput.tsx:30-35 | Enter without Shift behaves exactly as a form submit; Enter with Shift emits nothing and leaves the buffer |
| Composer.Run | src/components/ChatInput.tsx:13-19 | over any event sequence, the composer emits at most once per event |
| Composer.RunEmitsOnlyContent | src/components/ChatInput.tsx:13-19 | over any event sequence, every emitted message holds a non-whitespace character, and a disabled composer emits nothing |
| Chat.Init | src/pages/Chat.tsx:16-19 | the first render holds a fresh session, an empty message list and sidebar, no send and `loading` false; the effect runs for that session (lines 96-97) |
| Chat.Advance | src/pages/Chat.tsx:157-159 | moving a send to its next phase changes only that send's phase; reaching the end clears `loading`, as the `finally` and the early `setLoading(false)` at line 125 do |
| Chat.OnPush | src/pages/Chat.tsx:41-42 | a push appends exactly the pushed row at the end, keeps every earlier row, and changes nothing else |
| Wrappers.Option.GetOr | src/pages/Chat.tsx:63 | the fallback `data`-or-`[]` is the fetched rows when there are any, and the empty list when `data` is null |
| Chat.OnHistory | src/pages/Chat.tsx:47-63 | a successful history load replaces the list with the fetched rows, or with none when `data` is null; a failed one leaves the state unchanged and raises a toast with the error message |
| Chat.OnConversations | src/pages/Chat.tsx:67-94 | a successful conversations query replaces the sidebar list with the summaries of its rows; null data changes nothing; an error only raises a toast |
| Chat.SwitchTo | src/pages/Chat.tsx:162-164 | a conversation click, or New Chat (lines 176-178) with a fresh id, sets the new session id and empties the list, with nothing else changed; the session effect re-runs only when the id changed |
| Chat.RequestFor | src/pages/Chat.tsx:130-141 | the POST goes to the agent URL and carries `query` = the content, `user_id` = `NA`, and the send's request id and captured session id |
| Chat.StartSend | src/pages/Chat.tsx:104-117 | starting a send sets `loading`, records a new send awaiting its insert with the current session captured, inserts a human row of that session and content, and leaves the message list alone |
| Chat.OnInsert | src/pages/Chat.tsx:119-141 | a failed insert finishes the send, clears `loading` and toasts without any POST; a successful one issues exactly the agent POST; only that send's phase and `loading` change, and every other send and the send's captured values stay as they were |
| Chat.OnHttp | src/pages/Chat.tsx:129-146 | only an ok response moves on to reading the body, with no effect; a rejected fetch fails the send with a toast of its message, and a non-ok status fails it with a toast of "Failed to send message"; either failure clears `loading`; only that send's phase and `loading` change |
| Chat.OnJson | src/pages/Chat.tsx:147-159 | reading the body always finishes the send and clears `loading`; it succeeds, with no toast, exactly when `data.success` holds; an unparsable body fails it with a toast of its message, and a false `success` with a toast of "Request failed"; only that send's phase and `loading` change |
| Chat.Apply | src/pages/Chat.tsx:41-178 | each event goes to its handler, New Chat being a switch to a fresh id; only the conversations query changes the sidebar list, and only pushes, the history query, clicks and New Chat change the message list or the session |
| ChatProperties.MessagesGrowOnlyByPushes | src/pages/Chat.tsx:41-42 | between resets the list only grows, by the pushed rows in arrival order, and the session does not change |
| ChatProperties.SwitchStartsEmpty | src/pages/Chat.tsx:162-164 | after a conversation click or New Chat, the session is the new id and the list holds exactly the rows pushed since, until the next reset |
| ChatProperties.HistoryThenPushes | src/pages/Chat.tsx:41-63 | after a successful history load, until the next reset, the list is the fetched rows (none for null data) followed by exactly the rows pushed since, and the session stays |
| ChatProperties.SidebarOnlyFromQuery | src/pages/Chat.tsx:67-93 | no sequence of events without a completed conversations query changes the sidebar list |
| ChatProperties.SendsKeepMessages | src/pages/Chat.tsx:104-160 | no sequence of send events changes the message list |
| ChatProperties.ApplyFollows | src/pages/Chat.tsx:104-160 | a step keeps every send with its captured session, content and id; phases never go back; a finished send keeps its outcome; new sends start awaiting their insert |
| ChatProperties.RunFollows | src/pages/Chat.tsx:104-160 | the same holds over any event sequence |
| ChatProperties.RunEffectsMatchCalls | src/pages/Chat.tsx:109-141 | over any events, each insert is the human row of its send's captured session and content, and each POST carries that send's content, session and id |
| ChatProperties.ApplyPosts | src/pages/Chat.tsx:119-141 | a step POSTs for a send at most once, only while the send awaits its insert, and afterwards it cannot POST again |
| ChatProperties.RunPostsAtMostOnce | src/pages/Chat.tsx:119-141 | over any event sequence each send POSTs to the agent at most once, and never once its insert has been answered |
| ChatProperties.InsertFailureMeansNoRequest | src/pages/Chat.tsx:119-127 | after a failed insert, `loading` is cleared and no later event makes that send reach the agent |
| ChatProperties.DeliveredIff | src/pages/Chat.tsx:129-159 | for any HTTP result and any body result, the send ends finished with `loading` false, and it succeeded exactly when the response was ok and `data.success` holds |
| ChatProperties.ApplyKeepsLoadingMeansBusy | src/pages/Chat.tsx:104-159 | every step keeps the invariant that `loading` is set only while some send is under way |
| ChatProperties.RunKeepsLoadingMeansBusy | src/pages/Chat.tsx:104-159 | the invariant holds over any event sequence |
| ChatProperties.IdleWhenAllSendsDone | src/pages/Chat.tsx:157-159 | from the first render, whatever the event order, once no send is under way `loading` is false |
| ChatProperties.FinishClearsLoading | src/pages/Chat.tsx:119-159 | the step that finishes a send clears `loading` |
| Screen.Apply | src/pages/Chat.tsx:219 | a composer emission happens only while not loading and starts a send with the raw, non-blank buffer, clearing the composer; no emission leaves the controller unchanged; a controller event other than a send request steps the controller exactly as on its own and keeps the composer text, and a send request arriving other than through the composer changes nothing |
| Screen.ApplyKeepsOneSendAtATime | src/pages/Chat.tsx:219 | with the composer disabled while loading, each step keeps at most one send under way, with `loading` set exactly while one is |
| Screen.OnlyOneSendAtATime | src/pages/Chat.tsx:219 | the same holds over any event sequence |
| Screen.ReachableOneSendAtATime | src/pages/Chat.tsx:219 | from the first render, whatever the event order, at most one send is ever under way and `loading` says whether one is |

## Left out

- The backend client: select, insert, channel, subscribe and unsubscribe. Only their outcomes are modelled, as events.
- The `fetch` to the agent. Only its outcome is modelled, as events.
- The subscription's lifecycle and the effect's cleanup (`src/pages/Chat.tsx:99-101`). The model does not decide which rows the backend pushes, and it does not filter or deduplicate pushes, because the code does not.
- Timing races between the history fetch and pushes. Only event order is modelled: any interleaving is allowed.
- `uuidv4()` randomness. Fresh ids are parameters of `Init`, `NewChat` and the send events.
- The exact UTF-16 behaviour of `trim` and `slice`. A `char` stands for one code unit, and surrogate pairs are not modelled. `IsWhitespace` lists the ECMAScript WhiteSpace and LineTerminator code points.
- Composer.Handle: an edit (`onChange`) always replaces the buffer. The model does not capture that a disabled textarea receives no input, because that is browser behaviour, not code.
- The textarea's own newline insertion on Shift+Enter. The model states only that the handler neither submits nor touches the buffer.
- Toast titles and variants. Only the description text is an effect.
- Scrolling, sidebar toggling, `window.innerWidth` and all JSX and CSS. These are presentation only.
- The authentication screen (`src/pages/Auth.tsx`). It only sets a busy flag around two backend auth calls and then navigates or shows a toast.
- The message renderer (`src/components/ChatMessage.tsx`). It is pure presentation.

=== FILE: chat.dfy ===
/** The chat screen's controller: the active session, its message list, the
    sidebar's conversation list, the `loading` flag, and each call of
    `handleSendMessage` as a pipeline of asynchronous steps. Every completion
    (a query result, a live push, an insert result, an HTTP response, its JSON
    body) is an event; events may arrive in any order, one at a time. */
module Chat {
  import opened Wrappers
  import opened Messages
  import Conversations

  /** The agent's fixed URL and the user marker every request carries. */
  const AgentEndpoint := "https://b70a4ba1-5ec4-4f8e-b93c-2e78977f115a.lovableproject.com/api/pydantic-github-agent"
  const AgentUserId := "NA"

  /** Toast texts of the send pipeline. */
  const InsertFailedText := "Failed to send message"
  const HttpFailedText := "Failed to send message"
  const RequestFailedText := "Request failed"

  /** The JSON body of the POST to the agent. */
  datatype AgentRequest = AgentRequest(
    url: string, query: string, userId: string, requestId: string, sessionId: string)

  datatype SendResult = InsertFailed | AgentFailed(reason: string) | Delivered

  /** Where one call of `handleSendMessage` stands: awaiting the insert, the
      HTTP response, or the response's JSON body; or done. */
  datatype Phase = Inserting | Requesting | Reading | Finished(outcome: SendResult)

  /** One call of `handleSendMessage`. `sessionId` is the value its closure
      captured when it was called; `requestId` is the fresh `uuidv4()`. */
  datatype Send = Send(sessionId: string, content: string, requestId: string, phase: Phase)

  datatype State = State(
    sessionId: string,
    messages: seq<Row>,
    loading: bool,
    conversations: seq<Conversations.Conversation>,
    sends: seq<Send>)

  /** What a step asks of the outside world. `Reload` stands for the effect
      re-running for a new session: a live subscription to it, its history
      query and the conversations query. Insert and POST name the send that
      issued them. */
  datatype Effect =
    | Reload(sessionId: string)
    | InsertRow(send: nat, row: Row)
    | PostAgent(send: nat, request: AgentRequest)
    | Toast(description: string)

  datatype Step = Step(state: State, effects: seq<Effect>)

  /** A query's answer: rows (`data`, which may be null) or an error. */
  datatype Query = Rows(data: Option<seq<Row>>) | QueryError(message: string)

  /** `fetch`: a rejected promise, or a response with its `ok` flag. */
  datatype HttpResult = NetworkError(message: string) | Response(ok: bool)

  /** `response.json()`: a rejected promise, or a body whose `success` is truthy or not. */
  datatype JsonResult = BadJson(message: string) | Json(success: bool)

  datatype Event =
    | Pushed(row: Row)
    | HistoryLoaded(history: Query)
    | ConversationsLoaded(all: Query)
    | ConversationClicked(sid: string)
    | NewChat(freshId: string)
    | SendRequested(content: string, requestId: string)
    | InsertResolved(send: nat, error: Option<string>)
    | HttpResolved(send: nat, http: HttpResult)
    | JsonResolved(send: nat, json: JsonResult)

  /** The first render: a fresh session, nothing loaded, not loading, and the
      effect running for that session. */
  function Init(freshId: string): (r: Step)
    ensures r.state.sessionId == freshId && r.state.messages == [] && r.state.conversations == []
    ensures !r.state.loading && r.state.sends == []
    ensures r.effects == [Reload(freshId)]
  {
    Step(State(freshId, [], false, [], []), [Reload(freshId)])
  }

  /** A live push: the pushed row goes to the end of the list. */
  function OnPush(s: State, row: Row): (r: State)
    ensures |r.messages| == |s.messages| + 1
    ensures r.messages[..|s.messages|] == s.messages && r.messages[|s.messages|] == row
    ensures r == s.(messages := r.messages)
  {
    s.(messages := s.messages + [row])
  }

  /** `fetchMessages` completing: the list becomes the fetched rows (none when
      `data` is null); an error only raises a toast. */
  function OnHistory(s: State, q: Query): (r: Step)
    ensures q.Rows? && q.data.Some? ==> r.state.messages == q.data.value
    ensures q.Rows? && q.data.None? ==> r.state.messages == []
    ensures q.Rows? ==> r.state == s.(messages := r.state.messages) && r.effects == []
    ensures q.QueryError? ==> r.state == s && r.effects == [Toast(q.message)]
  {
    match q
    case Rows(data) => Step(s.(messages := data.GetOr([])), [])
    case QueryError(m) => Step(s, [Toast(m)])
  }

  /** `fetchConversations` completing: the sidebar list becomes the summary of
      all rows. A null `data` makes `data.forEach` throw, which ends the
      handler with nothing changed and nothing shown. */
  function OnConversations(s: State, q: Query): (r: Step)
    ensures q.Rows? && q.data.Some? ==>
      r.state == s.(conversations := Conversations.Summaries(q.data.value)) && r.effects == []
    ensures q.Rows? && q.data.None? ==> r == Step(s, [])
    ensures q.QueryError? ==> r.state == s && r.effects == [Toast(q.message)]
  {
    match q
    case Rows(Some(data)) => Step(s.(conversations := Conversations.Summaries(data)), [])
    case Rows(None) => Step(s, [])
    case QueryError(m) => Step(s, [Toast(m)])
  }

  /** A session switch (a conversation click, or New Chat with a fresh id): the
      session changes and the list empties at once. The effect re-runs only when
      the id actually changed, since React skips an update to an equal value. */
  function SwitchTo(s: State, sid: string): (r: Step)
    ensures r.state.sessionId == sid && r.state.messages == []
    ensures r.state == s.(sessionId := sid, messages := [])
    ensures r.effects == if sid == s.sessionId then [] else [Reload(sid)]
  {
    Step(s.(sessionId := sid, messages := []), if sid == s.sessionId then [] else [Reload(sid)])
  }

  /** The POST body a send carries. */
  function RequestFor(send: Send): (req: AgentRequest)
    ensures req.query == send.content && req.userId == AgentUserId
    ensures req.sessionId == send.sessionId && req.requestId == send.requestId
    ensures req.url == AgentEndpoint
  {
    AgentRequest(AgentEndpoint, send.content, AgentUserId, send.requestId, send.sessionId)
  }

  /** The synchronous start of `handleSendMessage`: set `loading`, capture the
      session, and insert the human row. */
  function StartSend(s: State, content: string, requestId: string): (r: Step)
    ensures r.state.loading
    ensures r.state == s.(loading := true, sends := r.state.sends)
    ensures |r.state.sends| == |s.sends| + 1 && r.state.sends[..|s.sends|] == s.sends
    ensures r.state.sends[|s.sends|] == Send(s.sessionId, content, requestId, Inserting)
    ensures r.effects == [InsertRow(|s.sends|, HumanRow(s.sessionId, content))]
  {
    var t := |s.sends|;
    Step(s.(loading := true, sends := s.sends + [Send(s.sessionId, content, requestId, Inserting)]),
         [InsertRow(t, HumanRow(s.sessionId, content))])
  }

  /** Send `t` exists and is still under way. */
  predicate InFlight(s: State, t: nat) {
    t < |s.sends| && !s.sends[t].phase.Finished?
  }

  /** Moves send `t` to `phase`; reaching the end runs the `finally` and clears `loading`. */
  function Advance(s: State, t: nat, phase: Phase, effects: seq<Effect>): (r: Step)
    requires t < |s.sends|
    ensures r.state.sends == s.sends[t := s.sends[t].(phase := phase)]
    ensures r.state == s.(sends := r.state.sends, loading := r.state.loading)
    ensures r.state.loading == (s.loading && !phase.Finished?)
    ensures r.effects == effects
  {
    var send := s.sends[t].(phase := phase);
    Step(s.(sends := s.sends[t := send], loading := if phase.Finished? then false else s.loading),
         effects)
  }

  /** The insert of send `t` completing. On error: toast, clear `loading`, stop.
      On success: POST the content to the agent. */
  function OnInsert(s: State, t: nat, error: Option<string>): (r: Step)
    ensures |r.state.sends| == |s.sends|
    ensures r.state == s.(sends := r.state.sends, loading := r.state.loading)
    ensures t < |s.sends| ==> r.state.sends == s.sends[t := s.sends[t].(phase := r.state.sends[t].phase)]
    ensures t < |s.sends| && s.sends[t].phase == Inserting && error.Some? ==>
      && r.state.sends[t].phase == Finished(InsertFailed) && !r.state.loading
      && r.effects == [Toast(InsertFailedText)]
    ensures t < |s.sends| && s.sends[t].phase == Inserting && error.None? ==>
      && r.state.sends[t].phase == Requesting && r.state.loading == s.loading
      && r.effects == [PostAgent(t, RequestFor(s.sends[t]))]
    ensures !(t < |s.sends| && s.sends[t].phase == Inserting) ==> r == Step(s, [])
  {
    if t < |s.sends| && s.sends[t].phase == Inserting then
      match error
      case Some(_) => Advance(s, t, Finished(InsertFailed), [Toast(InsertFailedText)])
      case None => Advance(s, t, Requesting, [PostAgent(t, RequestFor(s.sends[t]))])
    else Step(s, [])
  }

  /** The agent's HTTP response for send `t`. A rejected fetch or a non-ok status
      ends the send with a toast; an ok status goes on to read the body. */
  function OnHttp(s: State, t: nat, h: HttpResult): (r: Step)
    ensures |r.state.sends| == |s.sends|
    ensures r.state == s.(sends := r.state.sends, loading := r.state.loading)
    ensures t < |s.sends| ==> r.state.sends == s.sends[t := s.sends[t].(phase := r.state.sends[t].phase)]
    ensures t < |s.sends| && s.sends[t].phase == Requesting ==>
      && (h == Response(true) <==> r.state.sends[t].phase == Reading)
      && (h != Response(true) ==> r.state.sends[t].phase.Finished? && !r.state.loading)
      && (h != Response(true) ==>
            && r.state.sends[t].phase.outcome.AgentFailed?
            && r.effects == [Toast(if h.NetworkError? then h.message else HttpFailedText)])
      && (h == Response(true) ==> r.state.loading == s.loading && r.effects == [])
    ensures !(t < |s.sends| && s.sends[t].phase == Requesting) ==> r == Step(s, [])
  {
    if t < |s.sends| && s.sends[t].phase == Requesting then
      match h
      case NetworkError(m) => Advance(s, t, Finished(AgentFailed(m)), [Toast(m)])
      case Response(ok) =>
        if ok then Advance(s, t, Reading, [])
        else Advance(s, t, Finished(AgentFailed(HttpFailedText)), [Toast(HttpFailedText)])
    else Step(s, [])
  }

  /** The JSON body for send `t`: the send succeeds only if `data.success`. */
  function OnJson(s: State, t: nat, j: JsonResult): (r: Step)
    ensures |r.state.sends| == |s.sends|
    ensures r.state == s.(sends := r.state.sends, loading := r.state.loading)
    ensures t < |s.sends| ==> r.state.sends == s.sends[t := s.sends[t].(phase := r.state.sends[t].phase)]
    ensures t < |s.sends| && s.sends[t].phase == Reading ==>
      && r.state.sends[t].phase.Finished? && !r.state.loading
      && (r.state.sends[t].phase == Finished(Delivered) <==> j == Json(true))
      && (r.effects == [] <==> j == Json(true))
      && (j != Json(true) ==>
            && r.state.sends[t].phase.outcome.AgentFailed?
            && r.effects == [Toast(if j.BadJson? then j.message else RequestFailedText)])
    ensures !(t < |s.sends| && s.sends[t].phase == Reading) ==> r == Step(s, [])
  {
    if t < |s.sends| && s.sends[t].phase == Reading then
      match j
      case BadJson(m) => Advance(s, t, Finished(AgentFailed(m)), [Toast(m)])
      case Json(success) =>
        if success then Advance(s, t, Finished(Delivered), [])
        else Advance(s, t, Finished(AgentFailed(RequestFailedText)), [Toast(RequestFailedText)])
    else Step(s, [])
  }

  /** One event, routed to its handler. New Chat is a switch to the fresh id.
      Only the conversations query touches the sidebar list; only pushes, the
      history query and switches touch the message list. */
  function Apply(s: State, e: Event): (r: Step)
    ensures e.Pushed? ==> r == Step(OnPush(s, e.row), [])
    ensures e.HistoryLoaded? ==> r == OnHistory(s, e.history)
    ensures e.ConversationsLoaded? ==> r == OnConversations(s, e.all)
    ensures e.ConversationClicked? ==> r == SwitchTo(s, e.sid)
    ensures e.NewChat? ==> r == SwitchTo(s, e.freshId)
    ensures e.SendRequested? ==> r == StartSend(s, e.content, e.requestId)
    ensures !e.ConversationsLoaded? ==> r.state.conversations == s.conversations
    ensures !(e.Pushed? || e.HistoryLoaded? || e.ConversationClicked? || e.NewChat?) ==>
      r.state.messages == s.messages && r.state.sessionId == s.sessionId
  {
    match e
    case Pushed(row) => Step(OnPush(s, row), [])
    case HistoryLoaded(q) => OnHistory(s, q)
    case ConversationsLoaded(q) => OnConversations(s, q)
    case ConversationClicked(sid) => SwitchTo(s, sid)
    case NewChat(freshId) => SwitchTo(s, freshId)
    case SendRequested(content, requestId) => StartSend(s, content, requestId)
    case InsertResolved(t, error) => OnInsert(s, t, error)
    case HttpResolved(t, h) => OnHttp(s, t, h)
    case JsonResolved(t, j) => OnJson(s, t, j)
  }

  /** Events applied in order, with every effect they produce. */
  function Run(s: State, events: seq<Event>): Step
    decreases |events|
  {
    if |events| == 0 then Step(s, [])
    else
      var a := Apply(s, events[0]);
      var b := Run(a.state, events[1..]);
      Step(b.state, a.effects + b.effects)
  }
}

=== FILE: chat_properties.dfy ===
/** Properties of the chat controller over whole event sequences. */
module ChatProperties {
  import opened Wrappers
  import opened Messages
  import opened Chat

  /** The rows live pushes delivered, in arrival order. */
  function PushedRows(events: seq<Event>): seq<Row>
    decreases |events|
  {
    if |events| == 0 then []
    else (if events[0].Pushed? then [events[0].row] else []) + PushedRows(events[1..])
  }

  /** Events that overwrite the message list: a history load or a session switch. */
  predicate Resets(e: Event) {
    e.HistoryLoaded? || e.ConversationClicked? || e.NewChat?
  }

  /** The events of one `handleSendMessage` pipeline. */
  predicate IsSendEvent(e: Event) {
    e.SendRequested? || e.InsertResolved? || e.HttpResolved? || e.JsonResolved?
  }

  /** One non-reset event adds the pushed row, if any, and keeps the session. */
  lemma ApplyMessages(s: State, e: Event)
    requires !Resets(e)
    ensures Apply(s, e).state.messages == s.messages + (if e.Pushed? then [e.row] else [])
    ensures Apply(s, e).state.sessionId == s.sessionId
  {
    if !e.Pushed? {
      assert s.messages + [] == s.messages;
    }
  }

  /** Without a reset, the message list only grows, by the pushed rows in arrival
      order, and the session stays the same. */
  lemma {:induction false} MessagesGrowOnlyByPushes(s: State, events: seq<Event>)
    requires forall i :: 0 <= i < |events| ==> !Resets(events[i])
    ensures Run(s, events).state.messages == s.messages + PushedRows(events)
    ensures Run(s, events).state.sessionId == s.sessionId
    decreases |events|
  {
    if |events| == 0 {
      assert s.messages + [] == s.messages;
    } else {
      var e := events[0];
      var a := Apply(s, e);
      var head := if e.Pushed? then [e.row] else [];
      ApplyMessages(s, e);
      assert forall i :: 0 <= i < |events[1..]| ==> events[1..][i] == events[i + 1];
      MessagesGrowOnlyByPushes(a.state, events[1..]);
      assert Run(s, events).state == Run(a.state, events[1..]).state;
      assert PushedRows(events) == head + PushedRows(events[1..]);
      assert s.messages + head + PushedRows(events[1..]) == s.messages + (head + PushedRows(events[1..]));
    }
  }

  /** After a switch (a conversation click or New Chat), the list holds exactly
      the rows pushed since, until the next reset. */
  lemma SwitchStartsEmpty(s: State, e: Event, events: seq<Event>)
    requires e.ConversationClicked? || e.NewChat?
    requires forall i :: 0 <= i < |events| ==> !Resets(events[i])
    ensures Run(s, [e] + events).state.messages == PushedRows(events)
    ensures Run(s, [e] + events).state.sessionId == if e.NewChat? then e.freshId else e.sid
  {
    var evs := [e] + events;
    assert evs[0] == e && evs[1..] == events;
    var sid := if e.NewChat? then e.freshId else e.sid;
    MessagesGrowOnlyByPushes(SwitchTo(s, sid).state, events);
  }

  /** A successful history load replaces the list; afterwards, until the next
      reset, the list is the fetched rows (none for null data) followed by the
      rows pushed since. */
  lemma HistoryThenPushes(s: State, d: Option<seq<Row>>, events: seq<Event>)
    requires forall i :: 0 <= i < |events| ==> !Resets(events[i])
    ensures Run(s, [HistoryLoaded(Rows(d))] + events).state.messages == d.GetOr([]) + PushedRows(events)
    ensures Run(s, [HistoryLoaded(Rows(d))] + events).state.sessionId == s.sessionId
  {
    var evs := [HistoryLoaded(Rows(d))] + events;
    assert evs[0] == HistoryLoaded(Rows(d)) && evs[1..] == events;
    MessagesGrowOnlyByPushes(OnHistory(s, Rows(d)).state, events);
  }

  /** The sidebar list changes only when the conversations query completes. */
  lemma {:induction false} SidebarOnlyFromQuery(s: State, events: seq<Event>)
    requires forall i :: 0 <= i < |events| ==> !events[i].ConversationsLoaded?
    ensures Run(s, events).state.conversations == s.conversations
    decreases |events|
  {
    if |events| > 0 {
      SidebarOnlyFromQuery(Apply(s, events[0]).state, events[1..]);
    }
  }

  /** Send events never change the message list. */
  lemma {:induction false} SendsKeepMessages(s: State, events: seq<Event>)
    requires forall i :: 0 <= i < |events| ==> IsSendEvent(events[i])
    ensures Run(s, events).state.messages == s.messages
    decreases |events|
  {
    if |events| > 0 {
      SendsKeepMessages(Apply(s, events[0]).state, events[1..]);
    }
  }

  /** How far along a send is. */
  function Rank(p: Phase): nat {
    match p
    case Inserting => 0
    case Requesting => 1
    case Reading => 2
    case Finished(_) => 3
  }

  /** Same call of `handleSendMessage`: same captured session, content and id. */
  predicate SameCall(a: Send, b: Send) {
    a.sessionId == b.sessionId && a.content == b.content && a.requestId == b.requestId
  }

  /** `s2` comes after `s1`: every call is kept, with its captured values, and
      its phase has not gone back; a finished call keeps its outcome. */
  ghost predicate Follows(s1: State, s2: State) {
    && |s1.sends| <= |s2.sends|
    && forall t :: 0 <= t < |s1.sends| ==>
         && SameCall(s1.sends[t], s2.sends[t])
         && Rank(s1.sends[t].phase) <= Rank(s2.sends[t].phase)
         && (s1.sends[t].phase.Finished? ==> s2.sends[t] == s1.sends[t])
  }

  lemma ApplyFollows(s: State, e: Event)
    ensures Follows(s, Apply(s, e).state)
    ensures forall t :: |s.sends| <= t < |Apply(s, e).state.sends| ==>
      Apply(s, e).state.sends[t].phase == Inserting
  {
  }

  lemma {:induction false} RunFollows(s: State, events: seq<Event>)
    ensures Follows(s, Run(s, events).state)
    decreases |events|
  {
    if |events| > 0 {
      var a := Apply(s, events[0]);
      ApplyFollows(s, events[0]);
      RunFollows(a.state, events[1..]);
    }
  }

  /** Every insert a step issues is the human row of its call, and every POST
      carries its call's content, session and id with the user marker `NA`. */
  ghost predicate EffectsMatchCalls(effects: seq<Effect>, s: State) {
    forall i :: 0 <= i < |effects| ==>
      && (effects[i].InsertRow? ==>
            && effects[i].send < |s.sends|
            && effects[i].row == HumanRow(s.sends[effects[i].send].sessionId,
                                          s.sends[effects[i].send].content))
      && (effects[i].PostAgent? ==>
            && effects[i].send < |s.sends|
            && effects[i].request == RequestFor(s.sends[effects[i].send]))
  }

  lemma MatchFollows(effects: seq<Effect>, s1: State, s2: State)
    requires EffectsMatchCalls(effects, s1) && Follows(s1, s2)
    ensures EffectsMatchCalls(effects, s2)
  {
    forall i | 0 <= i < |effects| && (effects[i].InsertRow? || effects[i].PostAgent?)
      ensures effects[i].send < |s2.sends|
    {
    }
  }

  lemma ApplyEffectsMatchCalls(s: State, e: Event)
    ensures EffectsMatchCalls(Apply(s, e).effects, Apply(s, e).state)
  {
    var r := Apply(s, e);
    match e
    case SendRequested(content, requestId) =>
      assert r.effects == [InsertRow(|s.sends|, HumanRow(s.sessionId, content))];
    case InsertResolved(t, error) =>
      if t < |s.sends| && s.sends[t].phase == Inserting && error.None? {
        assert r.effects == [PostAgent(t, RequestFor(s.sends[t]))];
        assert SameCall(r.state.sends[t], s.sends[t]);
      }
    case _ =>
  }

  /** Over any events, every insert and POST the controller issues carries the
      values its call captured when it started. */
  lemma {:induction false} RunEffectsMatchCalls(s: State, events: seq<Event>)
    ensures EffectsMatchCalls(Run(s, events).effects, Run(s, events).state)
    decreases |events|
  {
    if |events| > 0 {
      var a := Apply(s, events[0]);
      var b := Run(a.state, events[1..]);
      RunEffectsMatchCalls(a.state, events[1..]);
      RunFollows(a.state, events[1..]);
      ApplyEffectsMatchCalls(s, events[0]);
      MatchFollows(a.effects, a.state, b.state);
    }
  }

  /** How many POSTs to the agent send `t` issued. */
  function PostsFor(effects: seq<Effect>, t: nat): nat
    decreases |effects|
  {
    if |effects| == 0 then 0
    else (if effects[0].PostAgent? && effects[0].send == t then 1 else 0) + PostsFor(effects[1..], t)
  }

  lemma {:induction false} PostsForAppend(a: seq<Effect>, b: seq<Effect>, t: nat)
    ensures PostsFor(a + b, t) == PostsFor(a, t) + PostsFor(b, t)
    decreases |a|
  {
    if |a| == 0 {
      assert a + b == b;
    } else {
      assert (a + b)[0] == a[0];
      assert (a + b)[1..] == a[1..] + b;
      PostsForAppend(a[1..], b, t);
    }
  }

  /** Send `t` may still POST: it has not started yet, or awaits its insert. */
  predicate MayPost(s: State, t: nat) {
    t >= |s.sends| || s.sends[t].phase == Inserting
  }

  lemma ApplyPosts(s: State, e: Event, t: nat)
    ensures PostsFor(Apply(s, e).effects, t) <= (if MayPost(s, t) then 1 else 0)
    ensures PostsFor(Apply(s, e).effects, t) > 0 ==> !MayPost(Apply(s, e).state, t)
    ensures !MayPost(s, t) ==> !MayPost(Apply(s, e).state, t)
  {
    var effs := Apply(s, e).effects;
    assert |effs| <= 1;
    if |effs| == 1 {
      assert PostsFor(effs, t) == (if effs[0].PostAgent? && effs[0].send == t then 1 else 0);
    }
  }

  /** Each send POSTs to the agent at most once, and never once its insert has
      been answered. */
  lemma {:induction false} RunPostsAtMostOnce(s: State, events: seq<Event>, t: nat)
    ensures PostsFor(Run(s, events).effects, t) <= (if MayPost(s, t) then 1 else 0)
    decreases |events|
  {
    if |events| > 0 {
      var a := Apply(s, events[0]);
      ApplyPosts(s, events[0], t);
      RunPostsAtMostOnce(a.state, events[1..], t);
      PostsForAppend(a.effects, Run(a.state, events[1..]).effects, t);
    }
  }

  /** A failed insert stops the pipeline: whatever happens afterwards, that send
      never reaches the agent, and `loading` is cleared at once. */
  lemma InsertFailureMeansNoRequest(s: State, t: nat, err: string, events: seq<Event>)
    requires t < |s.sends| && s.sends[t].phase == Inserting
    ensures !Apply(s, InsertResolved(t, Some(err))).state.loading
    ensures PostsFor(Run(s, [InsertResolved(t, Some(err))] + events).effects, t) == 0
  {
    var evs := [InsertResolved(t, Some(err))] + events;
    assert evs[0] == InsertResolved(t, Some(err)) && evs[1..] == events;
    var a := Apply(s, evs[0]);
    assert PostsFor(a.effects, t) == 0;
    RunPostsAtMostOnce(a.state, events, t);
    PostsForAppend(a.effects, Run(a.state, events).effects, t);
  }

  /** Once a send has its HTTP result and then its body, it has finished with
      `loading` cleared, and it succeeded exactly when the fetch returned an ok
      response and the body's `success` holds. A rejected fetch or a non-ok
      status ends it before the body, which then changes nothing. */
  lemma DeliveredIff(s: State, t: nat, h: HttpResult, j: JsonResult)
    requires t < |s.sends| && s.sends[t].phase == Requesting
    ensures t < |Run(s, [HttpResolved(t, h), JsonResolved(t, j)]).state.sends|
    ensures Run(s, [HttpResolved(t, h), JsonResolved(t, j)]).state.sends[t].phase.Finished?
    ensures !Run(s, [HttpResolved(t, h), JsonResolved(t, j)]).state.loading
    ensures (Run(s, [HttpResolved(t, h), JsonResolved(t, j)]).state.sends[t].phase
              == Finished(Delivered)) <==> h == Response(true) && j == Json(true)
  {
    var evs := [HttpResolved(t, h), JsonResolved(t, j)];
    var a := Apply(s, evs[0]);
    assert evs[1..] == [JsonResolved(t, j)];
    var b := Apply(a.state, evs[1]);
    assert evs[1..][1..] == [];
    assert Run(b.state, []).state == b.state;
    assert Run(a.state, evs[1..]).state == b.state;
    assert Run(s, evs).state == b.state;
  }

  /** `loading` is only ever set while some send is under way. */
  ghost predicate LoadingMeansBusy(s: State) {
    s.loading ==> exists t :: InFlight(s, t)
  }

  lemma ApplyKeepsLoadingMeansBusy(s: State, e: Event)
    requires LoadingMeansBusy(s)
    ensures LoadingMeansBusy(Apply(s, e).state)
  {
    var s' := Apply(s, e).state;
    if s'.loading {
      if e.SendRequested? {
        assert InFlight(s', |s.sends|);
      } else {
        var t :| InFlight(s, t);
        assert InFlight(s', t);
      }
    }
  }

  lemma {:induction false} RunKeepsLoadingMeansBusy(s: State, events: seq<Event>)
    requires LoadingMeansBusy(s)
    ensures LoadingMeansBusy(Run(s, events).state)
    decreases |events|
  {
    if |events| > 0 {
      ApplyKeepsLoadingMeansBusy(s, events[0]);
      RunKeepsLoadingMeansBusy(Apply(s, events[0]).state, events[1..]);
    }
  }

  /** Every path ends with `loading` false: once no send is under way, whatever
      order the events came in, the screen is not loading. */
  lemma IdleWhenAllSendsDone(freshId: string, events: seq<Event>)
    ensures (forall t :: !InFlight(Run(Init(freshId).state, events).state, t))
        ==> !Run(Init(freshId).state, events).state.loading
  {
    RunKeepsLoadingMeansBusy(Init(freshId).state, events);
  }

  /** The step that finishes a send clears `loading`. */
  lemma FinishClearsLoading(s: State, e: Event, t: nat)
    requires InFlight(s, t)
    ensures t < |Apply(s, e).state.sends|
    ensures Apply(s, e).state.sends[t].phase.Finished? ==> !Apply(s, e).state.loading
  {
  }
}

=== FILE: composer.dfy ===
/** The message composer: one text buffer, a submit guard, the Enter-key rule
    and the Send button's enabled state. `disabled` is the chat screen's
    `loading` flag. */
module Composer {
  import opened Wrappers
  import Text

  /** `KeyboardEvent.key`: only Enter matters to the composer. `OtherKey` stands
      for every other key, so its `name` is never `"Enter"`. */
  datatype Key = Enter | OtherKey(name: string)

  datatype Event =
    | Changed(value: string)            // the textarea's onChange
    | KeyDown(key: Key, shift: bool)    // the textarea's onKeyDown
    | FormSubmitted                     // the form's onSubmit (the Send button)

  /** The buffer after a handler ran, and what it passed to `onSendMessage`. */
  datatype Outcome = Outcome(buffer: string, emitted: Option<string>)

  /** The Send button's `disabled` attribute. */
  function SendDisabled(buffer: string, disabled: bool): (r: bool)
    ensures r <==> disabled || !Text.HasContent(buffer)
  {
    Text.TrimEmptyIff(buffer);
    disabled || Text.Trim(buffer) == []
  }

  /** `handleSubmit`: emit the raw buffer and clear it when it holds a
      non-whitespace character and the composer is enabled; otherwise do nothing. */
  function Submit(buffer: string, disabled: bool): (r: Outcome)
    ensures r.emitted.Some? <==> (Text.HasContent(buffer) && !disabled)
    ensures r.emitted.Some? ==> r.emitted.value == buffer && r.buffer == []
    ensures r.emitted.None? ==> r.buffer == buffer
  {
    Text.TrimEmptyIff(buffer);
    if Text.Trim(buffer) != [] && !disabled then Outcome([], Some(buffer))
    else Outcome(buffer, None)
  }

  /** Enter without Shift submits; every other key is left to the textarea. */
  predicate SubmitsOnKey(key: Key, shift: bool) {
    key == Enter && !shift
  }

  /** The composer's handler for one event. */
  function Handle(buffer: string, disabled: bool, e: Event): (r: Outcome)
    ensures r.emitted.Some? ==> Text.HasContent(buffer) && !disabled
    ensures r.emitted.Some? ==> r.emitted.value == buffer && r.buffer == []
    ensures e.KeyDown? && !SubmitsOnKey(e.key, e.shift) ==> r == Outcome(buffer, None)
    ensures e.FormSubmitted? || (e.KeyDown? && SubmitsOnKey(e.key, e.shift)) ==>
      r == Submit(buffer, disabled)
    ensures e.Changed? ==> r == Outcome(e.value, None)
  {
    match e
    case Changed(v) => Outcome(v, None)
    case KeyDown(key, shift) =>
      if SubmitsOnKey(key, shift) then Submit(buffer, disabled) else Outcome(buffer, None)
    case FormSubmitted => Submit(buffer, disabled)
  }

  /** The Send button is enabled exactly when a submit would emit. */
  lemma SendEnabledIffSubmitEmits(buffer: string, disabled: bool)
    ensures !SendDisabled(buffer, disabled) <==> Submit(buffer, disabled).emitted.Some?
  {
    Text.TrimEmptyIff(buffer);
  }

  /** Enter without Shift behaves as the Send button; Enter with Shift never submits. */
  lemma EnterKeyRule(buffer: string, disabled: bool)
    ensures Handle(buffer, disabled, KeyDown(Enter, false)) == Handle(buffer, disabled, FormSubmitted)
    ensures Handle(buffer, disabled, KeyDown(Enter, true)) == Outcome(buffer, None)
  {
  }

  /** Feeds events to the composer in order, collecting what it emits. */
  function Run(buffer: string, disabled: bool, events: seq<Event>): (r: (string, seq<string>))
    ensures |r.1| <= |events|
    decreases |events|
  {
    if |events| == 0 then (buffer, [])
    else
      var o := Handle(buffer, disabled, events[0]);
      var rest := Run(o.buffer, disabled, events[1..]);
      (rest.0, (if o.emitted.Some? then [o.emitted.value] else []) + rest.1)
  }

  /** Over any event sequence, every emitted message holds a non-whitespace
      character, and a disabled composer emits nothing. */
  lemma {:induction false} RunEmitsOnlyContent(buffer: string, disabled: bool, events: seq<Event>)
    ensures forall k :: 0 <= k < |Run(buffer, disabled, events).1| ==>
      Text.HasContent(Run(buffer, disabled, events).1[k])
    ensures disabled ==> Run(buffer, disabled, events).1 == []
    decreases |events|
  {
    if |events| > 0 {
      var o := Handle(buffer, disabled, events[0]);
      RunEmitsOnlyContent(o.buffer, disabled, events[1..]);
    }
  }
}

=== FILE: conversations.dfy ===
/** The sidebar's conversation list: `fetchConversations` reads every row of the
    `messages` table in creation order and keeps, per session, the first
    human-authored row, cut to a 100-code-unit title. */
module Conversations {
  import opened Wrappers
  import opened Messages
  import Text
  import OrderedMaps

  /** The title is `content.slice(0, 100)`. */
  const TitleLength: nat := 100

  datatype Conversation = Conversation(sessionId: string, title: string)

  /** The entry a row produces when it opens its session's summary. */
  function SummaryOf(r: Row): (c: Conversation)
    ensures c.sessionId == r.sessionId
    ensures c.title <= r.message.content && |c.title| <= TitleLength
    ensures |r.message.content| <= TitleLength ==> c.title == r.message.content
    ensures |r.message.content| > TitleLength ==> |c.title| == TitleLength
  {
    Conversation(r.sessionId, Text.SliceTo(r.message.content, TitleLength))
  }

  /** Row `i` is human-authored and no earlier row is a human row of its session. */
  predicate IsFirstHuman(rows: seq<Row>, i: nat)
    requires i < |rows|
  {
    && IsHuman(rows[i])
    && forall j :: 0 <= j < i ==> !(IsHuman(rows[j]) && rows[j].sessionId == rows[i].sessionId)
  }

  /** Where session `sid` has its first human row, found by scanning from the front. */
  function FirstHuman(rows: seq<Row>, sid: string): (p: Option<nat>)
    ensures p.Some? ==> p.value < |rows|
  {
    if |rows| == 0 then None
    else if IsHuman(rows[0]) && rows[0].sessionId == sid then Some(0)
    else
      match FirstHuman(rows[1..], sid)
      case None => None
      case Some(q) => Some(q + 1)
  }

  /** Dropping the last row changes no earlier row's first-human status. */
  lemma FirstHumanPrefix(rows: seq<Row>, n: nat, i: nat)
    requires i < n <= |rows|
    ensures IsFirstHuman(rows[..n], i) <==> IsFirstHuman(rows, i)
  {
    assert forall j :: 0 <= j <= i ==> rows[..n][j] == rows[j];
  }

  /** The first-human rows of the whole input, in input order. */
  function FirstHumanPositions(rows: seq<Row>): (ps: seq<nat>)
    ensures forall k :: 0 <= k < |ps| ==> ps[k] < |rows| && IsFirstHuman(rows, ps[k])
    ensures forall k, l :: 0 <= k < l < |ps| ==> ps[k] < ps[l]
    ensures forall i :: 0 <= i < |rows| && IsFirstHuman(rows, i) ==> i in ps
  {
    if |rows| == 0 then []
    else
      var n := |rows| - 1;
      var ps := FirstHumanPositions(rows[..n]);
      assert forall i :: 0 <= i < n ==> (IsFirstHuman(rows[..n], i) <==> IsFirstHuman(rows, i)) by {
        forall i | 0 <= i < n
          ensures IsFirstHuman(rows[..n], i) <==> IsFirstHuman(rows, i)
        {
          FirstHumanPrefix(rows, n, i);
        }
      }
      if IsFirstHuman(rows, n) then ps + [n] else ps
  }

  /** The reference summary list: one entry per first-human row, in input order. */
  function Summaries(rows: seq<Row>): seq<Conversation> {
    var ps := FirstHumanPositions(rows);
    seq(|ps|, k requires 0 <= k < |ps| => SummaryOf(rows[ps[k]]))
  }

  /** `FirstHuman` finds exactly the row that is the first human row of `sid`. */
  lemma {:induction false} FirstHumanIsFirst(rows: seq<Row>, sid: string, p: nat)
    ensures FirstHuman(rows, sid) == Some(p)
        <==> (p < |rows| && rows[p].sessionId == sid && IsFirstHuman(rows, p))
  {
    if |rows| == 0 {
    } else if IsHuman(rows[0]) && rows[0].sessionId == sid {
      if p > 0 && p < |rows| && rows[p].sessionId == sid {
        assert !IsFirstHuman(rows, p);
      }
    } else if p == 0 {
    } else {
      FirstHumanIsFirst(rows[1..], sid, p - 1);
      if p < |rows| {
        assert rows[1..][p - 1] == rows[p];
        assert forall j :: 0 <= j < p - 1 ==> rows[1..][j] == rows[j + 1];
        if IsFirstHuman(rows[1..], p - 1) && rows[p].sessionId == sid {
          forall j | 0 <= j < p
            ensures !(IsHuman(rows[j]) && rows[j].sessionId == rows[p].sessionId)
          {
            if j > 0 { assert rows[j] == rows[1..][j - 1]; }
          }
        }
        if IsFirstHuman(rows, p) {
          forall j | 0 <= j < p - 1
            ensures !(IsHuman(rows[1..][j]) && rows[1..][j].sessionId == rows[1..][p - 1].sessionId)
          {
            assert rows[1..][j] == rows[j + 1];
          }
        }
      }
    }
  }

  /** A session has a first human row exactly when it has some human row. */
  lemma {:induction false} FirstHumanExistsIff(rows: seq<Row>, sid: string)
    ensures FirstHuman(rows, sid).Some?
        <==> exists i :: 0 <= i < |rows| && rows[i].sessionId == sid && IsHuman(rows[i])
  {
    if |rows| == 0 {
    } else if IsHuman(rows[0]) && rows[0].sessionId == sid {
    } else {
      FirstHumanExistsIff(rows[1..], sid);
      if exists i :: 0 <= i < |rows| && rows[i].sessionId == sid && IsHuman(rows[i]) {
        var i :| 0 <= i < |rows| && rows[i].sessionId == sid && IsHuman(rows[i]);
        assert rows[1..][i - 1] == rows[i];
      }
      if FirstHuman(rows[1..], sid).Some? {
        var q := FirstHuman(rows[1..], sid).value;
        FirstHumanIsFirst(rows[1..], sid, q);
        assert rows[q + 1] == rows[1..][q];
      }
    }
  }

  /** No session appears twice in the summary list. */
  lemma SummariesUnique(rows: seq<Row>)
    ensures forall k, l :: 0 <= k < l < |Summaries(rows)| ==>
      Summaries(rows)[k].sessionId != Summaries(rows)[l].sessionId
  {
    var ps := FirstHumanPositions(rows);
    forall k, l | 0 <= k < l < |ps|
      ensures rows[ps[k]].sessionId != rows[ps[l]].sessionId
    {
      assert IsFirstHuman(rows, ps[l]);
      assert IsHuman(rows[ps[k]]);
    }
  }

  /** Entry `k` is titled by its session's first human row, cut to 100 code units. */
  lemma SummaryTitle(rows: seq<Row>, k: nat)
    requires k < |Summaries(rows)|
    ensures FirstHuman(rows, Summaries(rows)[k].sessionId) == Some(FirstHumanPositions(rows)[k])
    ensures Summaries(rows)[k].title
         == Text.SliceTo(rows[FirstHumanPositions(rows)[k]].message.content, TitleLength)
  {
    var ps := FirstHumanPositions(rows);
    FirstHumanIsFirst(rows, Summaries(rows)[k].sessionId, ps[k]);
  }

  /** A session has an entry exactly when at least one of its rows is human-authored. */
  lemma SummaryPresentIff(rows: seq<Row>, sid: string)
    ensures (exists k :: 0 <= k < |Summaries(rows)| && Summaries(rows)[k].sessionId == sid)
        <==> exists i :: 0 <= i < |rows| && rows[i].sessionId == sid && IsHuman(rows[i])
  {
    var s := Summaries(rows);
    var ps := FirstHumanPositions(rows);
    FirstHumanExistsIff(rows, sid);
    if exists k :: 0 <= k < |s| && s[k].sessionId == sid {
      var k :| 0 <= k < |s| && s[k].sessionId == sid;
      assert rows[ps[k]].sessionId == sid && IsHuman(rows[ps[k]]);
    }
    if FirstHuman(rows, sid).Some? {
      var p := FirstHuman(rows, sid).value;
      FirstHumanIsFirst(rows, sid, p);
      var k :| 0 <= k < |ps| && ps[k] == p;
      assert s[k].sessionId == sid;
    }
  }

  /** Entries are ordered by where their sessions' first human rows sit in the input. */
  lemma SummaryOrder(rows: seq<Row>, k: nat, l: nat)
    requires k < l < |Summaries(rows)|
    ensures FirstHuman(rows, Summaries(rows)[k].sessionId).Some?
    ensures FirstHuman(rows, Summaries(rows)[l].sessionId).Some?
    ensures FirstHuman(rows, Summaries(rows)[k].sessionId).value
          < FirstHuman(rows, Summaries(rows)[l].sessionId).value
  {
    SummaryTitle(rows, k);
    SummaryTitle(rows, l);
  }

  /** How one more row changes `FirstHuman`: an already found row stays; otherwise
      the new row is found if it is a human row of `sid`. */
  lemma FirstHumanAppend(rows: seq<Row>, x: Row, sid: string)
    ensures FirstHuman(rows + [x], sid)
         == if FirstHuman(rows, sid).Some? then FirstHuman(rows, sid)
            else if IsHuman(x) && x.sessionId == sid then Some(|rows|)
            else None
  {
    var rs := rows + [x];
    assert forall j :: 0 <= j < |rows| ==> rs[j] == rows[j];
    FirstHumanExistsIff(rows, sid);
    FirstHumanExistsIff(rs, sid);
    match FirstHuman(rows, sid)
    case Some(p) =>
      FirstHumanIsFirst(rows, sid, p);
      FirstHumanIsFirst(rs, sid, p);
    case None =>
      if IsHuman(x) && x.sessionId == sid {
        FirstHumanIsFirst(rs, sid, |rows|);
      }
  }

  /** One more row adds an entry at the end exactly when it is its session's first
      human row, and otherwise leaves the list as it was. */
  lemma SummariesAppend(rows: seq<Row>, x: Row)
    ensures Summaries(rows + [x])
         == Summaries(rows)
            + if IsHuman(x) && FirstHuman(rows, x.sessionId).None? then [SummaryOf(x)] else []
  {
    var rs := rows + [x];
    var opens := IsHuman(x) && FirstHuman(rows, x.sessionId).None?;
    assert rs[..|rows|] == rows;
    FirstHumanAppend(rows, x, x.sessionId);
    FirstHumanIsFirst(rs, x.sessionId, |rows|);
    assert IsFirstHuman(rs, |rows|) == opens;
    var ps := FirstHumanPositions(rows);
    var qs := FirstHumanPositions(rs);
    assert qs == ps + (if opens then [|rows|] else []);
    var tail := if opens then [SummaryOf(x)] else [];
    assert |Summaries(rs)| == |Summaries(rows) + tail|;
    forall k | 0 <= k < |qs|
      ensures Summaries(rs)[k] == (Summaries(rows) + tail)[k]
    {
      if k < |ps| {
        assert rs[ps[k]] == rows[ps[k]];
      }
    }
  }

  /** `fetchConversations`' fold, as the code writes it: walk the rows in order,
      and for a human row whose session the `Map` has not seen, record its
      session and title; then list the `Map`'s values in insertion order. */
  method FoldConversations(data: seq<Row>) returns (conversations: seq<Conversation>)
    ensures conversations == Summaries(data)
    ensures forall k, l :: 0 <= k < l < |conversations| ==>
      conversations[k].sessionId != conversations[l].sessionId
  {
    var conversationsMap: OrderedMaps.OrderedMap<string, Conversation> := OrderedMaps.Empty();
    for i := 0 to |data|
      invariant conversationsMap.Valid()
      invariant conversationsMap.Values() == Summaries(data[..i])
      invariant forall sid :: conversationsMap.Has(sid) <==> FirstHuman(data[..i], sid).Some?
    {
      var msg := data[i];
      assert data[..i + 1] == data[..i] + [msg];
      SummariesAppend(data[..i], msg);
      forall sid
        ensures FirstHuman(data[..i + 1], sid)
             == if FirstHuman(data[..i], sid).Some? then FirstHuman(data[..i], sid)
                else if IsHuman(msg) && msg.sessionId == sid then Some(i)
                else None
      {
        FirstHumanAppend(data[..i], msg, sid);
      }
      if !conversationsMap.Has(msg.sessionId) && IsHuman(msg) {
        conversationsMap := conversationsMap.Set(msg.sessionId,
          Conversation(msg.sessionId, Text.SliceTo(msg.message.content, TitleLength)));
      }
    }
    assert data[..|data|] == data;
    conversations := conversationsMap.Values();
    SummariesUnique(data);
  }
}

=== FILE: messages.dfy ===
/** Rows of the `messages` table as the chat client sees them: a session
    identifier and a `message` object with a `type` and a `content`. */
module Messages {

  /** The `message.type` a user-authored row carries. */
  const HumanType := "human"

  /** The JSON `message` column. Its `type` is free text in the table; the client
      writes `human`, and the agent writes its own. */
  datatype Body = Body(kind: string, content: string)

  datatype Row = Row(sessionId: string, message: Body)

  predicate IsHuman(r: Row) {
    r.message.kind == HumanType
  }

  /** The record `handleSendMessage` inserts for `content` in session `sessionId`. */
  function HumanRow(sessionId: string, content: string): (r: Row)
    ensures IsHuman(r)
    ensures r.sessionId == sessionId && r.message.content == content
  {
    Row(sessionId, Body(HumanType, content))
  }
}

=== FILE: ordered_maps.dfy ===
/** JavaScript's `Map`: a finite map that also remembers the order in which its
    keys were first inserted, and whose `values()` iterate in that order. */
module OrderedMaps {

  datatype OrderedMap<K(!new), V> = OrderedMap(keys: seq<K>, entries: map<K, V>) {

    /** Keys are listed once each, and exactly the keys of `entries` are listed. */
    ghost predicate Valid() {
      && (forall i, j :: 0 <= i < j < |keys| ==> keys[i] != keys[j])
      && (forall k :: k in entries <==> k in keys)
    }

    /** `m.has(k)`: of a valid map, exactly the keys listed in iteration order. */
    function Has(k: K): (r: bool)
      ensures Valid() ==> (r <==> k in keys)
    {
      k in entries
    }

    /** `Array.from(m.values())`. */
    function Values(): (vs: seq<V>)
      requires Valid()
      ensures |vs| == |keys|
      ensures forall i :: 0 <= i < |keys| ==> vs[i] == entries[keys[i]]
    {
      seq(|keys|, i requires 0 <= i < |keys| => entries[keys[i]])
    }

    /** `m.set(k, v)`: a new key goes to the end of the iteration order; an
        existing key keeps its place and takes the new value. */
    function Set(k: K, v: V): (m: OrderedMap<K, V>)
      requires Valid()
      ensures m.Valid()
      ensures m.Has(k) && m.entries[k] == v
      ensures forall k' :: k' != k ==> (m.Has(k') <==> Has(k'))
      ensures forall k' :: k' != k && Has(k') ==> m.Has(k') && m.entries[k'] == entries[k']
      ensures !Has(k) ==> m.keys == keys + [k]
      ensures !Has(k) ==> m.Values() == Values() + [v]
      ensures Has(k) ==> m.keys == keys
    {
      if k in entries then OrderedMap(keys, entries[k := v])
      else
        var m := OrderedMap(keys + [k], entries[k := v]);
        assert forall i :: 0 <= i < |keys| ==> keys[i] != k;
        m
    }
  }

  /** `new Map()`. */
  function Empty<K(!new), V>(): (m: OrderedMap<K, V>)
    ensures m.Valid()
    ensures m.Values() == []
    ensures forall k :: !m.Has(k)
  {
    OrderedMap([], map[])
  }
}

=== FILE: screen.dfy ===
/** The chat screen as rendered: the controller with the composer wired to it,
    `disabled={loading}` and `onSendMessage={handleSendMessage}`. On this
    screen the composer is the only caller of `handleSendMessage`. */
module Screen {
  import Text
  import Composer
  import Chat

  datatype Screen = Screen(chat: Chat.State, buffer: string)

  datatype Event =
    | Typed(input: Composer.Event, requestId: string)  // `requestId`: the `uuidv4()` a send would draw
    | Controller(event: Chat.Event)  // a completion, a push, or a sidebar click

  function Init(freshId: string): Screen {
    Screen(Chat.Init(freshId).state, "")
  }

  /** One event. A composer event that emits starts a send with the raw buffer;
      a `SendRequested` from elsewhere cannot happen on this screen and is ignored. */
  function Apply(sc: Screen, e: Event): (r: Screen)
    ensures e.Typed? ==> r.buffer == Composer.Handle(sc.buffer, sc.chat.loading, e.input).buffer
    ensures e.Typed? && Composer.Handle(sc.buffer, sc.chat.loading, e.input).emitted.Some? ==>
      && !sc.chat.loading && Text.HasContent(sc.buffer) && r.buffer == []
      && r.chat == Chat.StartSend(sc.chat, sc.buffer, e.requestId).state
    ensures e.Typed? && Composer.Handle(sc.buffer, sc.chat.loading, e.input).emitted.None? ==>
      r.chat == sc.chat
    ensures e.Controller? ==> r.buffer == sc.buffer
    ensures e.Controller? && !e.event.SendRequested? ==> r.chat == Chat.Apply(sc.chat, e.event).state
    ensures e.Controller? && e.event.SendRequested? ==> r == sc
  {
    match e
    case Typed(input, requestId) =>
      var o := Composer.Handle(sc.buffer, sc.chat.loading, input);
      var chat := if o.emitted.Some? then Chat.StartSend(sc.chat, o.emitted.value, requestId).state
                  else sc.chat;
      Screen(chat, o.buffer)
    case Controller(c) =>
      if c.SendRequested? then sc else sc.(chat := Chat.Apply(sc.chat, c).state)
  }

  function Run(sc: Screen, events: seq<Event>): Screen
    decreases |events|
  {
    if |events| == 0 then sc else Run(Apply(sc, events[0]), events[1..])
  }

  /** At most one send is under way, and `loading` says exactly whether one is. */
  ghost predicate OneSendAtATime(s: Chat.State) {
    && (forall t: nat, u: nat :: Chat.InFlight(s, t) && Chat.InFlight(s, u) ==> t == u)
    && (s.loading <==> exists t: nat :: Chat.InFlight(s, t))
  }

  lemma ApplyKeepsOneSendAtATime(sc: Screen, e: Event)
    requires OneSendAtATime(sc.chat)
    ensures OneSendAtATime(Apply(sc, e).chat)
  {
    var s := sc.chat;
    var s' := Apply(sc, e).chat;
    match e
    case Typed(input, requestId) =>
      if Composer.Handle(sc.buffer, s.loading, input).emitted.Some? {
        var n := |s.sends|;
        assert Chat.InFlight(s', n);
        forall t: nat | Chat.InFlight(s', t)
          ensures t == n
        {
          if t < n { assert Chat.InFlight(s, t); }
        }
      }
    case Controller(c) =>
      if !c.SendRequested? && (c.InsertResolved? || c.HttpResolved? || c.JsonResolved?) {
        var u := c.send;
        if s' != s {
          assert Chat.InFlight(s, u);
          assert |s'.sends| == |s.sends|;
          forall t: nat | t != u && t < |s.sends|
            ensures s'.sends[t] == s.sends[t]
          {
          }
          if s'.sends[u].phase.Finished? {
            forall t: nat | Chat.InFlight(s', t)
              ensures false
            {
              assert Chat.InFlight(s, t);
            }
          } else {
            assert Chat.InFlight(s', u);
            forall t: nat | Chat.InFlight(s', t)
              ensures t == u
            {
              if t != u { assert Chat.InFlight(s, t); }
            }
          }
        }
      } else if !c.SendRequested? {
        assert s'.sends == s.sends && s'.loading == s.loading;
        assert forall t :: Chat.InFlight(s', t) == Chat.InFlight(s, t);
      }
  }

  /** From the first render, whatever order events arrive in, the composer can
      have only one send under way, and `loading` is set exactly while it is. */
  lemma {:induction false} OnlyOneSendAtATime(sc: Screen, events: seq<Event>)
    requires OneSendAtATime(sc.chat)
    ensures OneSendAtATime(Run(sc, events).chat)
    decreases |events|
  {
    if |events| > 0 {
      ApplyKeepsOneSendAtATime(sc, events[0]);
      OnlyOneSendAtATime(Apply(sc, events[0]), events[1..]);
    }
  }

  lemma ReachableOneSendAtATime(freshId: string, events: seq<Event>)
    ensures OneSendAtATime(Run(Init(freshId), events).chat)
  {
    OnlyOneSendAtATime(Init(freshId), events);
  }
}

=== FILE: text.dfy ===
/** The parts of JavaScript string handling the chat client relies on:
    `String.prototype.trim` and its truthiness test, and `slice(0, n)`.
    A `char` stands for one UTF-16 code unit. */
module Text {

  /** The code points ECMAScript's `trim` removes: WhiteSpace (TAB, VT, FF, SP,
      NBSP, ZWNBSP and the Space_Separator category) and LineTerminator
      (LF, CR, LS, PS). */
  predicate IsWhitespace(c: char) {
    || c == '\t' || c == '\U{000B}' || c == '\U{000C}' || c == ' '
    || c == '\U{00A0}' || c == '\U{FEFF}'
    || c == '\U{1680}' || ('\U{2000}' <= c <= '\U{200A}')
    || c == '\U{202F}' || c == '\U{205F}' || c == '\U{3000}'
    || c == '\n' || c == '\r' || c == '\U{2028}' || c == '\U{2029}'
  }

  predicate AllWhitespace(s: string) {
    forall i :: 0 <= i < |s| ==> IsWhitespace(s[i])
  }

  /** The string holds at least one character `trim` would keep. */
  predicate HasContent(s: string) {
    exists i :: 0 <= i < |s| && !IsWhitespace(s[i])
  }

  /** Drops leading whitespace. */
  function TrimStart(s: string): (r: string)
    ensures |r| <= |s| && r == s[|s| - |r|..]
    ensures AllWhitespace(s[..|s| - |r|])
    ensures r == [] || !IsWhitespace(r[0])
  {
    if |s| > 0 && IsWhitespace(s[0]) then
      var r := TrimStart(s[1..]);
      assert s[1..][..|s| - 1 - |r|] == s[1..|s| - |r|];
      assert s[..|s| - |r|] == [s[0]] + s[1..|s| - |r|];
      assert r == s[1..][|s| - 1 - |r|..] == s[|s| - |r|..];
      r
    else
      s
  }

  /** Drops trailing whitespace. */
  function TrimEnd(s: string): (r: string)
    ensures |r| <= |s| && r == s[..|r|]
    ensures AllWhitespace(s[|r|..])
    ensures r == [] || !IsWhitespace(r[|r| - 1])
  {
    if |s| > 0 && IsWhitespace(s[|s| - 1]) then
      var r := TrimEnd(s[..|s| - 1]);
      assert s[..|s| - 1][|r|..] == s[|r|..|s| - 1];
      assert s[|r|..] == s[|r|..|s| - 1] + [s[|s| - 1]];
      assert r == s[..|s| - 1][..|r|] == s[..|r|];
      r
    else
      s
  }

  /** `s.trim()`: the infix of `s` left after removing whitespace at both ends. */
  function Trim(s: string): (r: string)
    ensures |r| <= |s|
    ensures r == [] || (!IsWhitespace(r[0]) && !IsWhitespace(r[|r| - 1]))
    ensures exists i, j :: 0 <= i <= j <= |s| && r == s[i..j]
                          && AllWhitespace(s[..i]) && AllWhitespace(s[j..])
  {
    var t := TrimStart(s);
    var u := TrimEnd(t);
    var i := |s| - |t|;
    var j := i + |u|;
    assert t == s[i..];
    assert u == t[..|u|] == s[i..j];
    assert AllWhitespace(s[..i]);
    assert s[j..] == t[|u|..];
    assert AllWhitespace(s[j..]);
    u
  }

  /** `s.trim()` is truthy exactly when `s` holds a non-whitespace character. */
  lemma TrimEmptyIff(s: string)
    ensures Trim(s) == [] <==> AllWhitespace(s)
    ensures Trim(s) != [] <==> HasContent(s)
  {
    var t := TrimStart(s);
    var u := TrimEnd(t);
    if u == [] {
      // a non-empty TrimStart result starts with a kept character, which TrimEnd keeps
      assert t == [];
      assert s[..|s| - |t|] == s;
    } else {
      assert u[0] == t[0];
      assert t[0] == s[|s| - |t|];
      assert !IsWhitespace(s[|s| - |t|]);
    }
  }

  /** The number of code units `slice(0, n)` keeps. */
  function Min(a: int, b: int): int {
    if a <= b then a else b
  }

  /** `s.slice(0, n)` for a non-negative `n`: the longest prefix of `s` with at most
      `n` code units. */
  function SliceTo(s: string, n: nat): (r: string)
    ensures r <= s
    ensures |r| == Min(|s|, n)
    ensures |s| <= n ==> r == s
  {
    if |s| <= n then s else s[..n]
  }
}

=== FILE: wrappers.dfy ===
/** The optional value used for nullable results (`data || []`) and for the
    at-most-one emission of a submit. */
module Wrappers {

  datatype Option<+T> = None | Some(value: T) {

    /** Returns the value in Some, or `default` when None (JavaScript's `x || default`
        for a nullable array). */
    function GetOr(default: T): (r: T)
      ensures Some? ==> r == value
      ensures None? ==> r == default
    {
      match this
      case Some(v) => v
      case None => default
    }
  }
}
